=== FILE: README.md ===
# Account and session handlers of the user controller, in Dafny

This project models the account and session state machine of a small Express/Mongoose
backend (`src/controllers/user.controller.js`): registration, login, logout, refresh-token
rotation, the guard of the password change, and the profile and cover-image updates.

Every handler is a pure function from the users collection to a
`Result<Outcome, Failure>`: either it throws (an `ApiError(status, message)` raised on
purpose, or some other exception that `asyncHandler` reports; `src/utils/asyncHandler.js` is not modelled) and the caller keeps
the old store, or it yields the new store and the response body. The collection is a
`map<UserId, User>` plus the id the database hands to the next insert; each `User` holds its
username, email, full name, an opaque password digest, the avatar and cover urls, and its one
current refresh token (`Option<Token>`).

What the controller gets from elsewhere is a parameter:

- `jwt.verify` with the refresh secret is `verify: Token -> Verification`: it rejects with a message or decodes a payload whose `_id` may be missing;
- the schema's `isPasswordCorrect` is `passwordOk(hash, password)`, and its pre-save hashing hook is `hash(password)`;
- token minting (`generateAccessToken`, `generateRefrshToken`) and the `save` after it are `mint: Option<TokenPair>`: the fresh pair, or `None` when any of them throws;
- what the Cloudinary SDK does with each staged file is an `SdkOutcome`: stored with a url, or an error;
- the caller identity put on `req.user` by the authentication middleware is a `UserId` parameter.

The model reproduces the code's quirks as written:

- the refresh response destructures `newRefreshToken`, which the token generator does not return, so its refresh token is absent (`Refreshed(access, None)`);
- the login projection excludes a misspelt `passowrd`, so the login response carries the password digest;
- the password change writes a misspelt `passowrd` field, so the stored digest is never replaced.

Modules follow the code: `Js` (truthiness, `trim`, `toLowerCase`), `Store` (records, `findOne`,
`findById`, `select` projections), `Cloudinary` (the upload wrapper of `src/utils/cloudinary.js`),
`UserController` (the handlers), `HandlerProperties` (error ladders of single calls),
`SessionProperties` (rotation, replay and logout across a few calls) and `SessionTraces`
(any sequence of requests: the store stays well formed, and a revoked refresh token stays
refused until something mints that same token again).

## Model

| member | source | states |
|---|---|---|
| Js.TrimStart | src/controllers/user.controller.js:43 | the leading-whitespace cut of `trim`: the result is a suffix of the input, every removed character is JavaScript whitespace, and the result does not start with whitespace |
| Js.TrimEnd | src/controllers/user.controller.js:43 | the trailing-whitespace cut of `trim`: the result is a prefix of the input, every removed character is JavaScript whitespace, and the result does not end with whitespace |
| Js.TrimEmptyIffBlank | src/controllers/user.controller.js:43 | `s.trim() === ""` holds exactly when every character of `s` is JavaScript whitespace |
| Js.ToLowerCase | src/controllers/user.controller.js:96 | the stored username has the same length as the supplied one, each letter lower-cased and no upper-case ASCII letter left |
| Js.ToLowerCaseIdempotent | src/controllers/user.controller.js:96 | lower-casing a stored username again changes nothing |
| Store.FindOne | src/controllers/user.controller.js:50-52 | the lookup returns a record whose username or email equals a supplied value, the first such in insertion order, and on a valid store returns null exactly when no record matches |
| Store.Select | src/controllers/user.controller.js:150 | a `select` projection shows the record's profile as stored and hides the password or the refresh token exactly when its correctly spelt name is excluded, so the login's `-passowrd` hides nothing (the same projection serves lines 99-101 and 313) |
| Cloudinary.UploadOnCloudinary | src/utils/cloudinary.js:10-27 | no path means no upload and a null result; a response always carries the url the SDK stored; with an error callback an SDK failure becomes the caller's error |
| Cloudinary.UploadWithoutCallbackAlwaysThrows | src/utils/cloudinary.js:17-25 | called with a path but no callback, the wrapper rejects whatever the SDK does: `_callback(null)` throws and the catch unlinks the file a second time |
| UserController.GenerateAccessAndRefreshTokens | src/controllers/user.controller.js:11-27 | the user's stored refresh token becomes the freshly minted one and nothing else changes; a missing user or a failed mint or save gives 500 |
| UserController.AvatarLocalPath | src/controllers/user.controller.js:60 | reading the avatar path throws a `TypeError` exactly when files were sent without an `avatar` field; a path is found exactly when an avatar file was staged, and it is the first one |
| UserController.CoverImageLocalPath | src/controllers/user.controller.js:62-65 | a cover path is found exactly when `req.files.coverImage` is a non-empty array, and it is the first staged file's path; otherwise the path stays undefined |
| UserController.UploadAssets | src/controllers/user.controller.js:73-93 | registration fails with 400 when the avatar or a staged cover fails to upload; the cover url is empty when no cover was staged |
| UserController.CreateUser | src/controllers/user.controller.js:90-101 | the created record has a fresh id, the lower-cased username, the uploaded urls and no refresh token; old records are untouched; the response omits password and refresh token |
| UserController.RegisterUser | src/controllers/user.controller.js:40-111 | registration answers "ALL fields are required" exactly when a supplied field trims to empty, and 201 only after the field, duplicate and avatar checks pass and the avatar was stored; its other deliberate errors are 400 or 409 |
| UserController.RegisterCheckedFields | src/controllers/user.controller.js:50-101 | past the field check, registration answers 409 exactly when the lookup finds a record; its other deliberate errors are the two 400s of the avatar and cover uploads; success is the insert of the uploaded urls |
| UserController.LoginUser | src/controllers/user.controller.js:122-170 | a successful login found the user by username or email and checked the password; the stored refresh token equals the one returned and nothing else changes; the response carries the password digest |
| UserController.LogoutUser | src/controllers/user.controller.js:173-202 | logout always answers 200 and clears the caller's refresh token, leaving every other field and record as it was |
| UserController.IncomingRefreshToken | src/controllers/user.controller.js:205 | the presented token is the cookie's when that is truthy and the body's otherwise; some token is presented exactly when either carries one |
| UserController.RefreshTryBlock | src/controllers/user.controller.js:213-250 | inside the `try`, a rejected token fails with the verifier's own message, any other failure with one of the three handler messages, and success holds exactly when the token is the live one of the user it names and minting works; success rotates only that user's token and returns no refresh token |
| UserController.RefreshAccessToken | src/controllers/user.controller.js:204-256 | every failure of refresh is a 401; success needs a token that is exactly the stored one of the user it names, rotates that user's token to the new one and returns no refresh token |
| UserController.ChangeCurrentPassword | src/controllers/user.controller.js:258-281 | the change succeeds exactly when the caller exists and the old password checks out, and then the store is unchanged |
| UserController.UpdateAccountDetails | src/controllers/user.controller.js:295-324 | a falsy name or email gives 400; otherwise only the caller's name and email change, and the response omits the password but not the refresh token |
| UserController.SetCoverImage | src/controllers/user.controller.js:390-398 | the cover-image update always succeeds: for an existing caller only the cover url changes, to the given one, and the response hides the password; for an unknown caller nothing changes and the response is null |
| UserController.UpdateUserCoverImageAsWritten | src/controllers/user.controller.js:373-388 | as written, the handler throws for every request: 400 without a file, an uncaught exception from the upload wrapper with one |
| UserController.UpdateUserCoverImage | src/controllers/user.controller.js:373-409 | as intended, a missing file or an upload without a url gives 400; otherwise only the caller's cover image changes, to the uploaded url |
| HandlerProperties.RegisterFieldCheck | src/controllers/user.controller.js:42-48 | registration answers "ALL fields are required" exactly when some supplied field is whitespace only; absent fields never trip it |
| HandlerProperties.RegisterDuplicate | src/controllers/user.controller.js:50-58 | past the field check, registration answers 409 exactly when a record has the supplied username or email |
| HandlerProperties.RegisterAvatarRequired | src/controllers/user.controller.js:60-71 | with valid fields and no duplicate, a request without an avatar path fails with 400 before any upload |
| HandlerProperties.RegisterCreatesOneRecord | src/controllers/user.controller.js:90-97 | a successful registration adds exactly one record, under a fresh id, with the lower-cased username and an empty cover when none was staged |
| HandlerProperties.LoginErrorLadder | src/controllers/user.controller.js:124-148 | login fails with 400 when both identifiers are falsy, then 404 when no record matches, then 401 on a wrong password, and succeeds exactly when all pass and minting works |
| HandlerProperties.RefreshErrorLadder | src/controllers/user.controller.js:205-255 | refresh fails with 401 for a missing token, a rejected token (with the verifier's message), an unknown user, a token other than the stored one, and a failed mint (with the 500's message) |
| HandlerProperties.UpdateAccountDetailsUndo | src/controllers/user.controller.js:304-315 | an account update is undone by a second update that writes back the caller's old name and email: the store is exactly the one before |
| HandlerProperties.ChangePasswordKeepsOldPassword | src/controllers/user.controller.js:262-270 | after a successful password change the old password still opens the account |
| HandlerProperties.CoverImageUpdateCounterexample | src/controllers/user.controller.js:382 | on one concrete staged file the as-written handler throws while the corrected one stores the new cover url |
| HandlerProperties.CoverImageUpdateAsWrittenNeverSucceeds | src/controllers/user.controller.js:376-388 | the as-written cover-image handler fails on every input |
| SessionProperties.LoginDisplacesPriorToken | src/controllers/user.controller.js:148 | after login the returned token refreshes, and any other token naming that user, including an earlier one, is refused as expired or used |
| SessionProperties.RefreshRejectsReplay | src/controllers/user.controller.js:227-238 | after a refresh with T, presenting T again is refused with 401 whenever the newly minted token differs from T |
| SessionProperties.RotatedTokenRefreshes | src/controllers/user.controller.js:17-18 | the token a refresh rotates in is the stored one and refreshes in turn when presented; no client receives it, because the response omits it and the cookie is set to `"undefined"` (lines 238-247) |
| SessionProperties.LogoutRevokesRefresh | src/controllers/user.controller.js:174-184 | after logout no refresh naming the caller succeeds; each is refused with 401 |
| SessionProperties.SessionScenario | src/controllers/user.controller.js:114-256 | login, refresh with the login token, replay of the login token refused, logout, refresh with the rotated token refused, when the tokens minted by the login and the refresh differ |
| SessionProperties.SameTokenRefreshesOnce | src/controllers/user.controller.js:227-231 | two refreshes with the same live token T: the first succeeds and the second is refused, when the token the first one mints differs from T |
| SessionTraces.StepPreservesValid | src/controllers/user.controller.js:90-97 | no request makes the store lose track of which ids are taken, so an insert never overwrites a record |
| SessionTraces.RunPreservesValid | src/controllers/user.controller.js:29-324 | the store stays well formed through any sequence of requests to the handlers from registration to the account update, plus the corrected cover-image update; `updateUserAvatar` (lines 326-371) is not among the requests |
| SessionTraces.RegisterKeepsRevoked | src/controllers/user.controller.js:90-97 | a registration never gives any user a refresh token |
| SessionTraces.LoginKeepsRevoked | src/controllers/user.controller.js:148 | a login stores only the token it mints |
| SessionTraces.RefreshKeepsRevoked | src/controllers/user.controller.js:238 | a refresh stores only the token it mints |
| SessionTraces.StepKeepsRevoked | src/controllers/user.controller.js:17-18 | a request that does not mint token T cannot make T a user's stored token again |
| SessionTraces.RunKeepsRevoked | src/controllers/user.controller.js:17-18 | through any sequence of requests that never mints T, a user who does not hold T never comes to hold it |
| SessionTraces.RevokedTokenRefused | src/controllers/user.controller.js:227-231 | a token the named user does not hold is refused with 401 |
| SessionTraces.RotatedOutTokenStaysRefused | src/controllers/user.controller.js:227-238 | after a refresh with T that stored a different token, T stays refused through any later requests that never mint T again |
| SessionTraces.LogoutStaysRevoked | src/controllers/user.controller.js:174-184 | after logout, a token naming the caller stays refused through any later requests that never mint that token again |

## Left out

- `updateUserAvatar` (`src/controllers/user.controller.js:326-371`) is not modelled. It depends on the module-level `avatar` variable shared by all requests, deletes the previous asset before uploading the new one, calls a `deleteFromCloudinary` that `src/utils/cloudinary.js` does not export, and swallows database errors. It has no stable contract to state.
- `getCurrentUser` only echoes `req.user`, so it has no logic to model.
- The missing `deleteFromCloudinary` export would also make the ES module import at `src/controllers/user.controller.js:4` fail, so the controller would not load at all. The model assumes the module loads.
- Cookies, the Express response object and `asyncHandler` are not modelled. An `Uncaught` failure stands for whatever `asyncHandler` makes of a non-`ApiError` exception. Because of the misnamed `newRefreshToken`, the refresh handler also sets the `refreshToken` cookie to the string `"undefined"`; this is not modelled.
- JWT signing, verification, expiry and secrets are left to the `verify` and `mint` parameters. Bcrypt hashing and comparison are left to `hash` and `passwordOk`.
- Store.FindOne: Mongo query semantics are abstracted. The lookup treats an absent username or email as matching nothing. "First match" is the least id, standing for insertion order. Mongoose casting of the supplied values and the schema's own lower-casing of queries are not modelled.
- UserController.CreateUser: the user schema is outside the model. An absent full name, email or password is assumed to be refused as a missing required field. Unique indexes and other schema validation are not modelled.
- The 500 at `src/controllers/user.controller.js:103-107` cannot occur in the model, because the re-read finds the record that was just inserted.
- UserController.UpdateAccountDetails: a duplicate-key error from a unique index on `email` is not modelled.
- `findById` cast errors for malformed ids are not modelled. A decoded payload either names a user id or names none.
- The external object store is not modelled. An avatar that was uploaded before a failed cover upload stays orphaned there, and the model does not track that.
- Staged files are assumed to exist when the upload wrapper is called. A failing first `fs.unlinkSync` is not modelled.
- Concurrent requests and last-writer-wins between them are not modelled; every handler is one atomic transition. In particular, registration reads the avatar url from the module-level `avatar` variable (`src/controllers/user.controller.js:9`, set at :73) again at :92, after the cover upload's `await` at :81, so two overlapping registrations can store each other's avatar url; the model gives each registration its own avatar result.
- Js.ToLowerCase: maps only the ASCII letters `A`-`Z`, because JavaScript's full Unicode case mapping is outside the model.
- Four behaviours of the code are worth stating plainly, and the model follows them:
  - no uploaded asset is ever deleted when a later step fails;
  - a failed token save makes login fail with 500, while refresh turns the same failure into a 401;
  - the login response carries the password digest;
  - the password change does not replace the stored digest.
- UserController.LogoutUser: the model takes `$set: { refreshToken: undefined }` (`src/controllers/user.controller.js:174-184`) to clear the stored token, which is what happens when the driver sends the undefined value as null. A Mongoose version that strips undefined keys from updates turns the update into a no-op, and then the caller's token stays live; `SessionProperties.LogoutRevokesRefresh`, `SessionTraces.LogoutStaysRevoked` and the last step of `SessionProperties.SessionScenario` hold only under this assumption. The Mongoose version is not part of this model.
- UserController.RegisterUser: request fields are modelled as strings or absent. A number, boolean or object from the JSON body makes `field?.trim()` at `src/controllers/user.controller.js:43` throw a `TypeError`, so such a registration ends in an uncaught error; the model has no such inputs.
- The calls into the database and the schema, other than the token save, are assumed never to reject: `findOne`, `findById`, `findByIdAndUpdate`, the `save` of the password change and `isPasswordCorrect`, while `create` rejects only for the missing required fields named on the `UserController.CreateUser:` line. Apart from that rejection, only the mint-and-save step (`mint`) and the uploads can fail in the model.

## Findings

| source | as written | input that shows it | evidently intended | confidence | as-written member | corrected member |
|---|---|---|---|---|---|---|
| src/controllers/user.controller.js:382 | `uploadOnCloudinary(coverImageLocalPath)` passes no callback. After a successful upload the wrapper calls `_callback(null)`, which throws inside its `try`; the `catch` then unlinks the already-deleted staged file and throws `ENOENT`. After a failed upload, `_callback(error)` throws a `TypeError`. Either way the handler rejects before the 400 check and the update | a request for user 0 with a staged file `public/temp/cover.png` that the SDK stores at `https://res.example/cover.png` | a failed upload answers 400 "error while uploading coverImage"; a successful one sets only `coverImage` to the new url | high, not executed | UserController.UpdateUserCoverImageAsWritten | UserController.UpdateUserCoverImage |

=== FILE: api_errors.dfy ===
/** What a request handler can throw. */
module ApiErrors {

  /** Exceptions that are not an `ApiError`; how `asyncHandler` reports them is outside the model. */
  datatype Exception =
    | TypeError          // a property read or call on `undefined`/`null`
    | FileNotFound       // `fs.unlinkSync` on a path that no longer exists
    | SchemaValidation   // the user schema refuses a document with a missing required field

  /** An `ApiError(status, message)` thrown on purpose, or any other exception. */
  datatype Failure =
    | ApiError(status: int, message: string)
    | Uncaught(exception: Exception)
}

=== FILE: cloudinary.dfy ===
/**
 * `uploadOnCloudinary(localFilePath, _callback)`: hand a staged file to the Cloudinary SDK,
 * remove the staged copy, report to the callback, and return the SDK's response or null.
 * The SDK call itself is an input outcome; the staged file is assumed to exist when the
 * wrapper is called with a path.
 */
module Cloudinary {
  import opened ApiErrors
  import opened Js

  /** What the SDK does with the staged file: stores it and answers with the asset's url, or throws. */
  datatype SdkOutcome = Stored(url: string) | SdkError

  /** The `_callback` argument the caller passes. */
  datatype Callback =
    | NoCallback                  // argument left out: `_callback` is `undefined`
    | IgnoreErrors                // a callback that never throws
    | ThrowOnError(err: Failure)  // `(error) => { if (error) throw err }`

  /** How the wrapper's promise settles. */
  datatype UploadResult = Null | Response(url: string) | Threw(failure: Failure)

  function UploadOnCloudinary(path: Field, sdk: SdkOutcome, cb: Callback): (r: UploadResult)
    // no path: the SDK is never reached
    ensures !Truthy(path) ==> r == Null
    // a response always carries the url of the asset the SDK stored
    ensures r.Response? ==> sdk == Stored(r.url)
    // an error callback turns an SDK failure into the caller's own error
    ensures Truthy(path) && sdk.SdkError? && cb.ThrowOnError? ==> r == Threw(cb.err)
    // a callback that does not throw on success lets every stored asset through
    ensures Truthy(path) && sdk.Stored? && !cb.NoCallback? ==> r == Response(sdk.url)
  {
    if !Truthy(path) then Null
    else match sdk
      case Stored(url) =>
        // the staged file is unlinked, then `_callback(null)` is invoked; with no callback that
        // call throws a TypeError inside the try, and the catch unlinks the file a second time
        if cb.NoCallback? then Threw(Uncaught(FileNotFound)) else Response(url)
      case SdkError =>
        // the catch unlinks the staged file and invokes `_callback(error)`
        match cb
        case NoCallback => Threw(Uncaught(TypeError))
        case IgnoreErrors => Null
        case ThrowOnError(err) => Threw(err)
  }

  /** Called without a callback and with a path, the wrapper rejects whatever the SDK does. */
  lemma UploadWithoutCallbackAlwaysThrows(path: Field, sdk: SdkOutcome)
    requires Truthy(path)
    ensures UploadOnCloudinary(path, sdk, NoCallback).Threw?
    ensures UploadOnCloudinary(path, sdk, NoCallback).failure.Uncaught?
  {
  }
}

=== FILE: handler_properties.dfy ===
/** The error ladders of the handlers, stated over the store rather than over the lookup. */
module HandlerProperties {
  import opened Wrappers
  import opened ApiErrors
  import opened Js
  import opened Store
  import opened Cloudinary
  import opened UserController

  /** Some supplied registration field is made of whitespace only; absent fields do not count. */
  predicate SuppliedFieldBlank(req: RegisterRequest) {
    || (req.fullName.Some? && AllWhitespace(req.fullName.value))
    || (req.email.Some? && AllWhitespace(req.email.value))
    || (req.username.Some? && AllWhitespace(req.username.value))
    || (req.password.Some? && AllWhitespace(req.password.value))
  }

  /** Registration answers "ALL fields are required" exactly when a supplied field is blank. */
  lemma RegisterFieldCheck(db: Db, req: RegisterRequest, avatarSdk: SdkOutcome, coverSdk: SdkOutcome,
                           hash: string -> PasswordHash)
    ensures RegisterUser(db, req, avatarSdk, coverSdk, hash) == Failure(ApiError(400, MsgAllFieldsRequired))
            <==> SuppliedFieldBlank(req)
  {
    TrimsToEmptyIffBlank(req.fullName);
    TrimsToEmptyIffBlank(req.email);
    TrimsToEmptyIffBlank(req.username);
    TrimsToEmptyIffBlank(req.password);
  }

  /**
   * Past the field check, registration answers 409 exactly when a stored record has the supplied
   * username or email; that check comes before any upload, and no record is created.
   */
  lemma RegisterDuplicate(db: Db, req: RegisterRequest, avatarSdk: SdkOutcome, coverSdk: SdkOutcome,
                          hash: string -> PasswordHash)
    requires Valid(db)
    requires !SuppliedFieldBlank(req)
    ensures RegisterUser(db, req, avatarSdk, coverSdk, hash) == Failure(ApiError(409, MsgUserExists))
            <==> AnyMatch(db, Query(req.username, req.email))
  {
    TrimsToEmptyIffBlank(req.fullName);
    TrimsToEmptyIffBlank(req.email);
    TrimsToEmptyIffBlank(req.username);
    TrimsToEmptyIffBlank(req.password);
  }

  /** With valid fields and no duplicate, a request without an avatar path is refused with 400. */
  lemma RegisterAvatarRequired(db: Db, req: RegisterRequest, avatarSdk: SdkOutcome, coverSdk: SdkOutcome,
                               hash: string -> PasswordHash)
    requires Valid(db)
    requires !SuppliedFieldBlank(req) && !AnyMatch(db, Query(req.username, req.email))
    requires AvatarLocalPath(req.files).Success? && !Truthy(AvatarLocalPath(req.files).value)
    ensures RegisterUser(db, req, avatarSdk, coverSdk, hash) == Failure(ApiError(400, MsgAvatarRequired))
  {
    TrimsToEmptyIffBlank(req.fullName);
    TrimsToEmptyIffBlank(req.email);
    TrimsToEmptyIffBlank(req.username);
    TrimsToEmptyIffBlank(req.password);
  }

  /**
   * A successful registration adds exactly one record under a fresh id, holding the lower-cased
   * username, the uploaded avatar, an empty cover when none was staged, and no refresh token.
   */
  lemma RegisterCreatesOneRecord(db: Db, req: RegisterRequest, avatarSdk: SdkOutcome, coverSdk: SdkOutcome,
                                 hash: string -> PasswordHash)
    requires Valid(db)
    ensures var r := RegisterUser(db, req, avatarSdk, coverSdk, hash);
      r.Success? ==>
        var id := r.value.response.user.id;
        && !SuppliedFieldBlank(req)
        && !AnyMatch(db, Query(req.username, req.email))
        && id !in db.users
        && r.value.store.users.Keys == db.users.Keys + {id}
        && (forall k :: k in db.users ==> r.value.store.users[k] == db.users[k])
        && Valid(r.value.store)
        && r.value.store.users[id].username == ToLowerCase(req.username.value)
        && avatarSdk == Stored(r.value.store.users[id].avatar)
        && (!Truthy(CoverImageLocalPath(req.files)) ==> r.value.store.users[id].coverImage == "")
        && r.value.store.users[id].refreshToken.None?
  {
    var r := RegisterUser(db, req, avatarSdk, coverSdk, hash);
    if r.Success? {
      TrimsToEmptyIffBlank(req.fullName);
      TrimsToEmptyIffBlank(req.email);
      TrimsToEmptyIffBlank(req.username);
      TrimsToEmptyIffBlank(req.password);
      var path := AvatarLocalPath(req.files).value;
      var assets := UploadAssets(path, CoverImageLocalPath(req.files), avatarSdk, coverSdk).value;
      assert r == CreateUser(db, req, assets, hash);
    }
  }

  /** The ordered failures of login; none of them writes to the store. */
  lemma LoginErrorLadder(db: Db, req: LoginRequest, passwordOk: (PasswordHash, Field) -> bool,
                         mint: Option<TokenPair>)
    requires Valid(db)
    ensures !Truthy(req.username) && !Truthy(req.email) ==>
      LoginUser(db, req, passwordOk, mint) == Failure(ApiError(400, MsgIdentifierRequired))
    ensures (Truthy(req.username) || Truthy(req.email)) && !AnyMatch(db, Query(req.username, req.email)) ==>
      LoginUser(db, req, passwordOk, mint) == Failure(ApiError(404, MsgUserNotFound))
    ensures (Truthy(req.username) || Truthy(req.email)) && FindOne(db, Query(req.username, req.email)).Some? ==>
      var id := FindOne(db, Query(req.username, req.email)).value;
      !passwordOk(db.users[id].password, req.password) ==>
        LoginUser(db, req, passwordOk, mint) == Failure(ApiError(401, MsgPasswordIncorrect))
    ensures LoginUser(db, req, passwordOk, mint).Success? <==>
      && (Truthy(req.username) || Truthy(req.email))
      && AnyMatch(db, Query(req.username, req.email))
      && passwordOk(db.users[FindOne(db, Query(req.username, req.email)).value].password, req.password)
      && mint.Some?
  {
  }

  /** The ordered failures of refresh: every one is a 401, and none writes to the store. */
  lemma RefreshErrorLadder(db: Db, cookie: Field, body: Field, verify: Token -> Verification,
                           mint: Option<TokenPair>)
    ensures var incoming := IncomingRefreshToken(cookie, body);
      !Truthy(incoming) ==>
        RefreshAccessToken(db, cookie, body, verify, mint) == Failure(ApiError(401, MsgUnauthorizedRequest))
    ensures var incoming := IncomingRefreshToken(cookie, body);
      Truthy(incoming) && verify(incoming.value).Rejected? ==>
        var m := verify(incoming.value).message;
        RefreshAccessToken(db, cookie, body, verify, mint)
          == Failure(ApiError(401, if m != "" then m else MsgInvalidRefreshToken))
    ensures var incoming := IncomingRefreshToken(cookie, body);
      Truthy(incoming) && verify(incoming.value).Decoded?
      && (Subject(verify, incoming.value).None? || Subject(verify, incoming.value).value !in db.users) ==>
        RefreshAccessToken(db, cookie, body, verify, mint) == Failure(ApiError(401, MsgInvalidRefreshToken))
    ensures var incoming := IncomingRefreshToken(cookie, body);
      Truthy(incoming) && Subject(verify, incoming.value).Some?
      && Subject(verify, incoming.value).value in db.users
      && db.users[Subject(verify, incoming.value).value].refreshToken != Some(incoming.value) ==>
        RefreshAccessToken(db, cookie, body, verify, mint) == Failure(ApiError(401, MsgTokenExpiredOrUsed))
    // the 500 of token generation comes back as a 401 with the same message
    ensures var incoming := IncomingRefreshToken(cookie, body);
      Truthy(incoming) && Subject(verify, incoming.value).Some?
      && IsLive(db, verify, incoming.value, Subject(verify, incoming.value).value) && mint.None? ==>
        RefreshAccessToken(db, cookie, body, verify, mint) == Failure(ApiError(401, MsgTokenGeneration))
    ensures var incoming := IncomingRefreshToken(cookie, body);
      RefreshAccessToken(db, cookie, body, verify, mint).Success? <==>
        Truthy(incoming) && Subject(verify, incoming.value).Some?
        && IsLive(db, verify, incoming.value, Subject(verify, incoming.value).value) && mint.Some?
  {
  }

  /**
   * Updating the account details is undone by a second update that writes the caller's old
   * name and email back (when both were truthy): the store is exactly the one before.
   */
  lemma UpdateAccountDetailsUndo(db: Db, caller: UserId, fullName: Field, email: Field)
    requires caller in db.users
    requires db.users[caller].fullName != "" && db.users[caller].email != ""
    ensures var u := db.users[caller];
      var r := UpdateAccountDetails(db, Some(caller), fullName, email);
      r.Success? ==>
        UpdateAccountDetails(r.value.store, Some(caller), Some(u.fullName), Some(u.email)).value.store == db
  {
  }

  /** A successful password change leaves the store as it was: the old password still opens the account. */
  lemma ChangePasswordKeepsOldPassword(db: Db, caller: Option<UserId>, oldPassword: Field, newPassword: Field,
                                       passwordOk: (PasswordHash, Field) -> bool)
    requires ChangeCurrentPassword(db, caller, oldPassword, newPassword, passwordOk).Success?
    ensures var db' := ChangeCurrentPassword(db, caller, oldPassword, newPassword, passwordOk).value.store;
      caller.value in db'.users && passwordOk(db'.users[caller.value].password, oldPassword)
  {
  }

  /**
   * The cover-image handler as written never succeeds; on a staged file the upload is stored
   * but the handler throws, while the corrected handler records the new cover.
   */
  lemma CoverImageUpdateCounterexample()
    ensures var db := Db(map[0 := User("alice", "a@x.com", "Alice", PasswordHash("h"),
                                       "https://res.example/avatar.png", "", None)], 1);
      var file := Some("public/temp/cover.png");
      var sdk := Stored("https://res.example/cover.png");
      && UpdateUserCoverImageAsWritten(db, Some(0), file, sdk) == Failure(Uncaught(FileNotFound))
      && UpdateUserCoverImage(db, Some(0), file, sdk).Success?
      && UpdateUserCoverImage(db, Some(0), file, sdk).value.store.users[0].coverImage == sdk.url
  {
  }

  /** For every input the as-written cover-image handler throws, so it never changes the store. */
  lemma CoverImageUpdateAsWrittenNeverSucceeds(db: Db, caller: Option<UserId>, file: Field, sdk: SdkOutcome)
    ensures UpdateUserCoverImageAsWritten(db, caller, file, sdk).Failure?
  {
  }
}

=== FILE: js.dfy ===
/** The few pieces of JavaScript value semantics the handlers rely on. */
module Js {
  import opened Wrappers

  /** A request field as the body parser hands it over: absent (`undefined`) or a string. */
  type Field = Option<string>

  /** JavaScript truthiness of a field: `undefined` and `""` are falsy, every other string is truthy. */
  predicate Truthy(f: Field) {
    f.Some? && f.value != ""
  }

  /** The WhiteSpace and LineTerminator code points that `String.prototype.trim` removes. */
  predicate IsWhitespace(c: char) {
    || c == '\t' || c == '\n' || c == '\U{000B}' || c == '\U{000C}' || c == '\r' || c == ' '
    || c == '\U{00A0}' || c == '\U{1680}' || ('\U{2000}' <= c <= '\U{200A}')
    || c == '\U{2028}' || c == '\U{2029}' || c == '\U{202F}' || c == '\U{205F}'
    || c == '\U{3000}' || c == '\U{FEFF}'
  }

  predicate AllWhitespace(s: string) {
    forall i :: 0 <= i < |s| ==> IsWhitespace(s[i])
  }

  /** Drops the leading whitespace of `s`: what is left is a suffix that starts with a non-blank. */
  function TrimStart(s: string): (r: string)
    ensures |r| <= |s| && r == s[|s| - |r|..]
    ensures r == [] || !IsWhitespace(r[0])
    ensures forall i :: 0 <= i < |s| - |r| ==> IsWhitespace(s[i])
  {
    if s == [] || !IsWhitespace(s[0]) then s
    else
      var r := TrimStart(s[1..]);
      assert forall i :: 1 <= i < |s| - |r| ==> s[i] == s[1..][i - 1];
      r
  }

  /** Drops the trailing whitespace of `s`: what is left is a prefix that ends with a non-blank. */
  function TrimEnd(s: string): (r: string)
    ensures |r| <= |s| && r == s[..|r|]
    ensures r == [] || !IsWhitespace(r[|r| - 1])
    ensures forall i :: |r| <= i < |s| ==> IsWhitespace(s[i])
  {
    if s == [] || !IsWhitespace(s[|s| - 1]) then s
    else
      var r := TrimEnd(s[..|s| - 1]);
      assert forall i :: |r| <= i < |s| - 1 ==> s[i] == s[..|s| - 1][i];
      r
  }

  /** `s.trim()` */
  function Trim(s: string): string {
    TrimEnd(TrimStart(s))
  }

  /** `s.trim() === ""` holds exactly for the strings made only of whitespace. */
  lemma TrimEmptyIffBlank(s: string)
    ensures Trim(s) == "" <==> AllWhitespace(s)
  {
  }

  /** `field?.trim() === ""`: an absent field is never blank, since `undefined !== ""`. */
  predicate TrimsToEmpty(f: Field) {
    f.Some? && Trim(f.value) == ""
  }

  lemma TrimsToEmptyIffBlank(f: Field)
    ensures TrimsToEmpty(f) <==> f.Some? && AllWhitespace(f.value)
  {
  }

  predicate IsAsciiUpper(c: char) {
    'A' <= c <= 'Z'
  }

  function LowerChar(c: char): char {
    if IsAsciiUpper(c) then (c as int + 32) as char else c
  }

  /** `s.toLowerCase()` on the ASCII range: every upper-case letter is mapped to its lower case. */
  function ToLowerCase(s: string): (r: string)
    ensures |r| == |s|
    ensures forall i :: 0 <= i < |s| ==> r[i] == LowerChar(s[i])
    ensures forall i :: 0 <= i < |r| ==> !IsAsciiUpper(r[i])
  {
    if s == [] then [] else [LowerChar(s[0])] + ToLowerCase(s[1..])
  }

  /** Lower-casing twice changes nothing more than lower-casing once. */
  lemma ToLowerCaseIdempotent(s: string)
    ensures ToLowerCase(ToLowerCase(s)) == ToLowerCase(s)
  {
  }
}

=== FILE: session_properties.dfy ===
/**
 * The single-live-refresh-token discipline across calls: login displaces the previous token,
 * refresh rotates it and rejects a replay, logout leaves nothing to refresh with.
 */
module SessionProperties {
  import opened Wrappers
  import opened ApiErrors
  import opened Js
  import opened Store
  import opened UserController

  /** The token a refresh request presents, as the handler picks it. */
  function Presented(cookie: Field, body: Field): Token
    requires Truthy(IncomingRefreshToken(cookie, body))
  {
    IncomingRefreshToken(cookie, body).value
  }

  /**
   * After a login, the returned refresh token is the one stored, so it refreshes as long as it
   * names the user; any other token naming that user, including one held before, is refused.
   */
  lemma LoginDisplacesPriorToken(db: Db, req: LoginRequest, passwordOk: (PasswordHash, Field) -> bool,
                                 mint: Option<TokenPair>, cookie: Field, body: Field,
                                 verify: Token -> Verification, mint2: Option<TokenPair>)
    requires LoginUser(db, req, passwordOk, mint).Success?
    requires Truthy(IncomingRefreshToken(cookie, body))
    requires Subject(verify, Presented(cookie, body)) == Some(LoginUser(db, req, passwordOk, mint).value.response.user.id)
    ensures var o := LoginUser(db, req, passwordOk, mint).value;
      var r := RefreshAccessToken(o.store, cookie, body, verify, mint2);
      && (Presented(cookie, body) == o.response.refreshToken && mint2.Some? ==> r.Success?)
      && (Presented(cookie, body) != o.response.refreshToken ==>
            r == Failure(ApiError(401, MsgTokenExpiredOrUsed)))
  {
  }

  /**
   * Rotation and replay: a successful refresh with T stores the newly minted token; when that
   * token differs from T, presenting T again is refused as expired or used, whatever is minted.
   */
  lemma RefreshRejectsReplay(db: Db, cookie: Field, body: Field, verify: Token -> Verification,
                             mint: Option<TokenPair>, cookie2: Field, body2: Field, mint2: Option<TokenPair>)
    requires RefreshAccessToken(db, cookie, body, verify, mint).Success?
    requires Truthy(IncomingRefreshToken(cookie2, body2))
    requires Presented(cookie2, body2) == Presented(cookie, body)
    requires mint.value.refresh != Presented(cookie, body)
    ensures var db' := RefreshAccessToken(db, cookie, body, verify, mint).value.store;
      RefreshAccessToken(db', cookie2, body2, verify, mint2) == Failure(ApiError(401, MsgTokenExpiredOrUsed))
  {
  }

  /**
   * The token a refresh rotates in is live in the store: presented while it names the same user,
   * it refreshes in turn. No client is ever handed this token, though: the refresh response
   * omits it and the cookie is set to the string "undefined", so a client that relies on the
   * cookie presents "undefined" next and is refused by the verifier.
   */
  lemma RotatedTokenRefreshes(db: Db, cookie: Field, body: Field, verify: Token -> Verification,
                              mint: Option<TokenPair>, mint2: Option<TokenPair>)
    requires RefreshAccessToken(db, cookie, body, verify, mint).Success?
    requires mint.value.refresh != ""
    requires Subject(verify, mint.value.refresh) == Subject(verify, Presented(cookie, body))
    requires mint2.Some?
    ensures var db' := RefreshAccessToken(db, cookie, body, verify, mint).value.store;
      RefreshAccessToken(db', Some(mint.value.refresh), None, verify, mint2).Success?
  {
  }

  /** After logout no token refreshes for the caller: whatever names the caller is refused with 401. */
  lemma LogoutRevokesRefresh(db: Db, caller: UserId, cookie: Field, body: Field,
                             verify: Token -> Verification, mint: Option<TokenPair>)
    ensures var db' := LogoutUser(db, caller).value.store;
      var r := RefreshAccessToken(db', cookie, body, verify, mint);
      && (r.Success? ==> Subject(verify, Presented(cookie, body)) != Some(caller))
      && (Truthy(IncomingRefreshToken(cookie, body)) && Subject(verify, Presented(cookie, body)) == Some(caller) ==>
            r.Failure? && r.error.status == 401)
  {
  }

  /**
   * The whole session of one user: log in and get T1; refresh with T1 and get T2; replaying T1
   * is refused; log out; refreshing with T2 is refused too.
   */
  lemma SessionScenario(db: Db, req: LoginRequest, passwordOk: (PasswordHash, Field) -> bool,
                        verify: Token -> Verification, p1: TokenPair, p2: TokenPair, p3: TokenPair)
    requires LoginUser(db, req, passwordOk, Some(p1)).Success?
    requires p1.refresh != "" && p2.refresh != "" && p1.refresh != p2.refresh
    requires var id := LoginUser(db, req, passwordOk, Some(p1)).value.response.user.id;
      Subject(verify, p1.refresh) == Some(id) && Subject(verify, p2.refresh) == Some(id)
    ensures var login := LoginUser(db, req, passwordOk, Some(p1)).value;
      var id := login.response.user.id;
      var rotate := RefreshAccessToken(login.store, Some(p1.refresh), None, verify, Some(p2));
      && login.response.refreshToken == p1.refresh
      && rotate.Success?
      && RefreshAccessToken(rotate.value.store, Some(p1.refresh), None, verify, Some(p3))
           == Failure(ApiError(401, MsgTokenExpiredOrUsed))
      && RefreshAccessToken(LogoutUser(rotate.value.store, id).value.store, Some(p2.refresh), None, verify, Some(p3))
           == Failure(ApiError(401, MsgTokenExpiredOrUsed))
  {
  }

  /**
   * Two refreshes presenting the same token one after the other: the first rotates, the second
   * is refused, provided the first mints a token different from the one presented.
   */
  lemma SameTokenRefreshesOnce(db: Db, t: Token, verify: Token -> Verification, p: TokenPair, q: TokenPair)
    requires t != "" && p.refresh != t
    requires Subject(verify, t).Some? && IsLive(db, verify, t, Subject(verify, t).value)
    ensures var first := RefreshAccessToken(db, Some(t), None, verify, Some(p));
      && first.Success?
      && RefreshAccessToken(first.value.store, Some(t), None, verify, Some(q)).Failure?
  {
  }
}

=== FILE: session_traces.dfy ===
/**
 * Sequences of requests against one store. A refresh token that no longer belongs to a user
 * stays refused for that user through every later request, as long as nothing mints the
 * same token again: the single stored value is the whole replay defence, with no history.
 */
module SessionTraces {
  import opened Wrappers
  import opened Js
  import opened Store
  import opened Cloudinary
  import opened UserController
  import opened HandlerProperties

  /** The collaborators that stay fixed for a run: token verification, password check, hashing. */
  datatype Env = Env(
    verify: Token -> Verification,
    passwordOk: (PasswordHash, Field) -> bool,
    hash: string -> PasswordHash)

  /**
   * One request to one of the modelled handlers, with the outcomes of its own collaborators.
   * `UpdateCover` runs the corrected cover-image handler, not the one the program has; the
   * handler as written always throws and so never changes the store, which keeps every trace
   * invariant below true of the program as well.
   */
  datatype Request =
    | Register(register: RegisterRequest, avatarSdk: SdkOutcome, coverSdk: SdkOutcome)
    | Login(login: LoginRequest, mint: Option<TokenPair>)
    | Logout(who: UserId)
    | Refresh(cookie: Field, body: Field, mint: Option<TokenPair>)
    | ChangePassword(caller: Option<UserId>, oldPassword: Field, newPassword: Field)
    | UpdateAccount(caller: Option<UserId>, fullName: Field, email: Field)
    | UpdateCover(caller: Option<UserId>, file: Field, sdk: SdkOutcome)

  function Handle(env: Env, db: Db, r: Request): Reply {
    match r
    case Register(req, avatarSdk, coverSdk) => RegisterUser(db, req, avatarSdk, coverSdk, env.hash)
    case Login(req, mint) => LoginUser(db, req, env.passwordOk, mint)
    case Logout(who) => LogoutUser(db, who)
    case Refresh(cookie, body, mint) => RefreshAccessToken(db, cookie, body, env.verify, mint)
    case ChangePassword(caller, oldPassword, newPassword) =>
      ChangeCurrentPassword(db, caller, oldPassword, newPassword, env.passwordOk)
    case UpdateAccount(caller, fullName, email) => UpdateAccountDetails(db, caller, fullName, email)
    case UpdateCover(caller, file, sdk) => UpdateUserCoverImage(db, caller, file, sdk)
  }

  /** The store after one request: a request that throws leaves it as it was. */
  function Step(env: Env, db: Db, r: Request): Db {
    var reply := Handle(env, db, r);
    if reply.Success? then reply.value.store else db
  }

  function Run(env: Env, db: Db, trace: seq<Request>): Db
    decreases |trace|
  {
    if trace == [] then db else Run(env, Step(env, db, trace[0]), trace[1..])
  }

  /** The refresh token a request would store, if it mints one. */
  function Mints(r: Request): Option<Token> {
    if (r.Login? || r.Refresh?) && r.mint.Some? then Some(r.mint.value.refresh) else None
  }

  predicate MintsNone(trace: seq<Request>, t: Token) {
    forall i :: 0 <= i < |trace| ==> Mints(trace[i]) != Some(t)
  }

  /** `t` is not the refresh token user `id` holds. */
  predicate RevokedFor(db: Db, id: UserId, t: Token) {
    id !in db.users || db.users[id].refreshToken != Some(t)
  }

  /** Every request keeps the store valid. */
  lemma StepPreservesValid(env: Env, db: Db, r: Request)
    requires Valid(db)
    ensures Valid(Step(env, db, r))
  {
    if r.Register? {
      RegisterCreatesOneRecord(db, r.register, r.avatarSdk, r.coverSdk, env.hash);
    }
  }

  lemma {:induction false} RunPreservesValid(env: Env, db: Db, trace: seq<Request>)
    requires Valid(db)
    ensures Valid(Run(env, db, trace))
    decreases |trace|
  {
    if trace != [] {
      StepPreservesValid(env, db, trace[0]);
      RunPreservesValid(env, Step(env, db, trace[0]), trace[1..]);
    }
  }

  /** A request that does not mint `t` cannot hand `t` back to a user who no longer holds it. */
  lemma StepKeepsRevoked(env: Env, db: Db, r: Request, id: UserId, t: Token)
    requires Valid(db)
    requires RevokedFor(db, id, t) && Mints(r) != Some(t)
    ensures RevokedFor(Step(env, db, r), id, t)
  {
    match r
    case Register(req, avatarSdk, coverSdk) =>
      RegisterKeepsRevoked(db, req, avatarSdk, coverSdk, env.hash, id, t);
    case Login(req, mint) =>
      LoginKeepsRevoked(db, req, env.passwordOk, mint, id, t);
    case Refresh(cookie, body, mint) =>
      RefreshKeepsRevoked(db, cookie, body, env.verify, mint, id, t);
    case Logout(who) =>
      assert Step(env, db, r) == LogoutUser(db, who).value.store;
    case ChangePassword(caller, oldPassword, newPassword) =>
      assert Step(env, db, r) == db;
    case UpdateAccount(caller, fullName, email) =>
      var reply := UpdateAccountDetails(db, caller, fullName, email);
      assert Step(env, db, r) == if reply.Success? then reply.value.store else db;
    case UpdateCover(caller, file, sdk) =>
      var reply := UpdateUserCoverImage(db, caller, file, sdk);
      assert Step(env, db, r) == if reply.Success? then reply.value.store else db;
  }

  lemma RegisterKeepsRevoked(db: Db, req: RegisterRequest, avatarSdk: SdkOutcome, coverSdk: SdkOutcome,
                             hash: string -> PasswordHash, id: UserId, t: Token)
    requires Valid(db) && RevokedFor(db, id, t)
    ensures var reply := RegisterUser(db, req, avatarSdk, coverSdk, hash);
      reply.Success? ==> RevokedFor(reply.value.store, id, t)
  {
    var reply := RegisterUser(db, req, avatarSdk, coverSdk, hash);
    if reply.Success? {
      var assets := UploadAssets(AvatarLocalPath(req.files).value, CoverImageLocalPath(req.files),
                                 avatarSdk, coverSdk).value;
      assert reply == CreateUser(db, req, assets, hash);
    }
  }

  lemma LoginKeepsRevoked(db: Db, req: LoginRequest, passwordOk: (PasswordHash, Field) -> bool,
                          mint: Option<TokenPair>, id: UserId, t: Token)
    requires RevokedFor(db, id, t) && (mint.None? || mint.value.refresh != t)
    ensures var reply := LoginUser(db, req, passwordOk, mint);
      reply.Success? ==> RevokedFor(reply.value.store, id, t)
  {
  }

  lemma RefreshKeepsRevoked(db: Db, cookie: Field, body: Field, verify: Token -> Verification,
                            mint: Option<TokenPair>, id: UserId, t: Token)
    requires RevokedFor(db, id, t) && (mint.None? || mint.value.refresh != t)
    ensures var reply := RefreshAccessToken(db, cookie, body, verify, mint);
      reply.Success? ==> RevokedFor(reply.value.store, id, t)
  {
  }

  lemma {:induction false} RunKeepsRevoked(env: Env, db: Db, trace: seq<Request>, id: UserId, t: Token)
    requires Valid(db)
    requires RevokedFor(db, id, t) && MintsNone(trace, t)
    ensures RevokedFor(Run(env, db, trace), id, t)
    decreases |trace|
  {
    if trace != [] {
      StepKeepsRevoked(env, db, trace[0], id, t);
      StepPreservesValid(env, db, trace[0]);
      assert MintsNone(trace[1..], t) by {
        forall i | 0 <= i < |trace| - 1
          ensures Mints(trace[1..][i]) != Some(t)
        {
          assert trace[1..][i] == trace[i + 1];
        }
      }
      RunKeepsRevoked(env, Step(env, db, trace[0]), trace[1..], id, t);
    }
  }

  /** A token the user no longer holds is refused whenever it is presented as naming that user. */
  lemma RevokedTokenRefused(db: Db, id: UserId, cookie: Field, body: Field, verify: Token -> Verification,
                            mint: Option<TokenPair>)
    requires Truthy(IncomingRefreshToken(cookie, body))
    requires Subject(verify, IncomingRefreshToken(cookie, body).value) == Some(id)
    requires RevokedFor(db, id, IncomingRefreshToken(cookie, body).value)
    ensures RefreshAccessToken(db, cookie, body, verify, mint).Failure?
    ensures RefreshAccessToken(db, cookie, body, verify, mint).error.status == 401
  {
  }

  /**
   * Rotation is permanent: once a refresh with T has stored a different token, T stays refused
   * after any further requests, as long as none of them mints T again.
   */
  lemma RotatedOutTokenStaysRefused(env: Env, db: Db, cookie: Field, body: Field, mint: Option<TokenPair>,
                                    trace: seq<Request>, mint2: Option<TokenPair>)
    requires Valid(db)
    requires RefreshAccessToken(db, cookie, body, env.verify, mint).Success?
    requires mint.value.refresh != IncomingRefreshToken(cookie, body).value
    requires MintsNone(trace, IncomingRefreshToken(cookie, body).value)
    ensures var db' := RefreshAccessToken(db, cookie, body, env.verify, mint).value.store;
      RefreshAccessToken(Run(env, db', trace), cookie, body, env.verify, mint2).Failure?
  {
    var t := IncomingRefreshToken(cookie, body).value;
    var id := Subject(env.verify, t).value;
    var db' := RefreshAccessToken(db, cookie, body, env.verify, mint).value.store;
    assert RevokedFor(db', id, t);
    RunKeepsRevoked(env, db', trace, id, t);
    RevokedTokenRefused(Run(env, db', trace), id, cookie, body, env.verify, mint2);
  }

  /**
   * Logout is permanent for every token it revoked: after it, a token naming the caller is
   * refused after any further requests that do not mint that same token.
   */
  lemma LogoutStaysRevoked(env: Env, db: Db, caller: UserId, trace: seq<Request>, cookie: Field, body: Field,
                           mint: Option<TokenPair>)
    requires Valid(db)
    requires Truthy(IncomingRefreshToken(cookie, body))
    requires Subject(env.verify, IncomingRefreshToken(cookie, body).value) == Some(caller)
    requires MintsNone(trace, IncomingRefreshToken(cookie, body).value)
    ensures var db' := LogoutUser(db, caller).value.store;
      RefreshAccessToken(Run(env, db', trace), cookie, body, env.verify, mint).Failure?
  {
    var t := IncomingRefreshToken(cookie, body).value;
    var db' := LogoutUser(db, caller).value.store;
    assert RevokedFor(db', caller, t);
    RunKeepsRevoked(env, db', trace, caller, t);
    RevokedTokenRefused(Run(env, db', trace), caller, cookie, body, env.verify, mint);
  }
}

=== FILE: store.dfy ===
/**
 * The users collection, reduced to what the controller reads and writes: one record per id,
 * the single current refresh token of each user, and the query forms the controller issues
 * (`findOne` on username-or-email, `findById`, and `select` projections).
 */
module Store {
  import opened Wrappers

  type UserId = nat
  type Token = string

  /** The stored password digest; hashing itself happens in the user schema, outside the model. */
  datatype PasswordHash = PasswordHash(digest: string)

  datatype User = User(
    username: string,
    email: string,
    fullName: string,
    password: PasswordHash,
    avatar: string,
    coverImage: string,
    refreshToken: Option<Token>)

  /** The collection, and the id the database will hand to the next inserted document. */
  datatype Db = Db(users: map<UserId, User>, nextId: UserId)

  /** Every stored id was handed out before `nextId`, so a fresh insert never overwrites a record. */
  predicate Valid(db: Db) {
    forall id :: id in db.users ==> id < db.nextId
  }

  /** `{ $or: [{ username }, { email }] }`; an absent value selects nothing on its own. */
  datatype Query = Query(username: Option<string>, email: Option<string>)

  predicate Matches(u: User, q: Query) {
    || (q.username.Some? && u.username == q.username.value)
    || (q.email.Some? && u.email == q.email.value)
  }

  predicate AnyMatch(db: Db, q: Query) {
    exists id :: id in db.users && Matches(db.users[id], q)
  }

  /** The least id in `[lo, hi)` whose record matches `q`. */
  function FindFrom(users: map<UserId, User>, q: Query, lo: nat, hi: nat): (r: Option<UserId>)
    decreases hi - lo
    ensures r.Some? ==> lo <= r.value < hi && r.value in users && Matches(users[r.value], q)
    ensures r.Some? ==> forall id :: lo <= id < r.value && id in users ==> !Matches(users[id], q)
    ensures r.None? ==> forall id :: lo <= id < hi && id in users ==> !Matches(users[id], q)
  {
    if lo >= hi then None
    else if lo in users && Matches(users[lo], q) then Some(lo)
    else FindFrom(users, q, lo + 1, hi)
  }

  /**
   * `User.findOne(q)`: the first matching record in insertion order, or null. On a valid
   * store it answers null exactly when no record matches.
   */
  function FindOne(db: Db, q: Query): (r: Option<UserId>)
    ensures r.Some? ==> r.value in db.users && Matches(db.users[r.value], q)
    ensures r.Some? ==> forall id :: id < r.value && id in db.users ==> !Matches(db.users[id], q)
    ensures Valid(db) ==> (r.None? <==> !AnyMatch(db, q))
  {
    FindFrom(db.users, q, 0, db.nextId)
  }

  /** A field of a projected document: left out by the projection, or present with its value. */
  datatype Projected<T> = Excluded | Included(value: T)

  /** A user document as a query with a `select("-a -b")` projection returns it. */
  datatype View = View(
    id: UserId,
    username: string,
    email: string,
    fullName: string,
    avatar: string,
    coverImage: string,
    password: Projected<PasswordHash>,
    refreshToken: Projected<Option<Token>>)

  function Project<T>(name: string, exclude: set<string>, value: T): Projected<T> {
    if name in exclude then Excluded else Included(value)
  }

  /** `findById(id).select(...)` with the names after each `-` in `exclude`; a misspelt name excludes nothing. */
  function Select(id: UserId, u: User, exclude: set<string>): (v: View)
    // the view shows the record's profile as stored
    ensures v.id == id && v.username == u.username && v.email == u.email && v.fullName == u.fullName
    ensures v.avatar == u.avatar && v.coverImage == u.coverImage
    // a secret field is hidden exactly when its correctly spelt name is excluded, and otherwise shown as stored
    ensures v.password.Excluded? <==> "password" in exclude
    ensures v.password.Included? ==> v.password.value == u.password
    ensures v.refreshToken.Excluded? <==> "refreshToken" in exclude
    ensures v.refreshToken.Included? ==> v.refreshToken.value == u.refreshToken
  {
    View(id, u.username, u.email, u.fullName, u.avatar, u.coverImage,
         Project("password", exclude, u.password),
         Project("refreshToken", exclude, u.refreshToken))
  }

  /** `u` and `v` agree on every field except the refresh token. */
  predicate SameProfile(u: User, v: User) {
    && u.username == v.username
    && u.email == v.email
    && u.fullName == v.fullName
    && u.password == v.password
    && u.avatar == v.avatar
    && u.coverImage == v.coverImage
  }

  /** `db'` holds the same ids as `db`, and every record other than `id` is untouched. */
  predicate OthersUnchanged(db: Db, db': Db, id: UserId) {
    && db'.nextId == db.nextId
    && db'.users.Keys == db.users.Keys
    && forall k :: k in db.users && k != id ==> db'.users[k] == db.users[k]
  }
}

=== FILE: user_controller.dfy ===
/**
 * The account and session handlers of the user controller, each a pure transition of the
 * users collection: a handler either throws (the caller keeps the old store) or yields the
 * new store and the response body.
 *
 * Collaborators outside the controller are parameters:
 *  - `passwordOk(hash, password)` stands for the schema's `isPasswordCorrect` (bcrypt compare);
 *  - `hash(password)` stands for the schema's pre-save hashing hook;
 *  - `verify(token)` stands for `jwt.verify` with the refresh secret;
 *  - `mint` is what token generation and the following `save` yield: a fresh pair, or None
 *    when any of them throws;
 *  - `SdkOutcome` values say what the Cloudinary SDK does with each staged file;
 *  - `caller` is the id the authentication middleware put on `req.user`.
 */
module UserController {
  import opened Wrappers
  import opened ApiErrors
  import opened Js
  import opened Store
  import opened Cloudinary

  const MsgTokenGeneration := "something went wrong while genrating access and refresh token"
  const MsgAllFieldsRequired := "ALL fields are required"
  const MsgUserExists := "User with email or username already exist"
  const MsgAvatarRequired := "AVATAR file is required"
  const MsgCoverImageRequired := "coverImage file is required"
  const MsgIdentifierRequired := "username or email required"
  const MsgUserNotFound := "user does not exist"
  const MsgPasswordIncorrect := "password incorrect"
  const MsgUnauthorizedRequest := "unauthorized request"
  const MsgInvalidRefreshToken := "invalid refreshToken"
  const MsgTokenExpiredOrUsed := "refresh Token is expired or used"
  const MsgOldPasswordIncorrect := "old password incorrect"
  const MsgAccountFieldsRequired := "all fields required"
  const MsgCoverImageMissing := "coverImage file is missing"
  const MsgCoverImageUploadError := "error while uploading coverImage"

  /** The `select` projections, as the names they exclude (the login one misspells `password`). */
  const RegisterExclusions: set<string> := {"password", "refreshToken"}
  const LoginExclusions: set<string> := {"passowrd", "refreshToken"}
  const UpdateExclusions: set<string> := {"password"}

  datatype TokenPair = TokenPair(access: Token, refresh: Token)

  /** The response bodies; cookies are not modelled. */
  datatype Response =
    | Registered(user: View)
    | LoggedIn(user: View, accessToken: Token, refreshToken: Token)
    | LoggedOut
    | Refreshed(access: Token, refresh: Option<Token>)
    | PasswordChanged
    | AccountUpdated(updated: Option<View>)
    | CoverImageUpdated(updated: Option<View>)

  function HttpStatus(resp: Response): int {
    if resp.Registered? then 201 else 200
  }

  datatype Outcome = Outcome(store: Db, response: Response)

  type Reply = Result<Outcome, Failure>

  datatype Issued = Issued(store: Db, tokens: TokenPair)

  /**
   * `generateAccessAndRefreshTokens(userId)`: the new refresh token replaces whatever the user
   * held, and the pair is handed back; any throw, including a missing user, becomes a 500.
   */
  function GenerateAccessAndRefreshTokens(db: Db, id: UserId, mint: Option<TokenPair>): (r: Result<Issued, Failure>)
    ensures r.Success? <==> id in db.users && mint.Some?
    ensures r.Failure? ==> r.error == ApiError(500, MsgTokenGeneration)
    ensures r.Success? ==> r.value.tokens == mint.value
    ensures r.Success? ==> OthersUnchanged(db, r.value.store, id)
    ensures r.Success? ==> SameProfile(db.users[id], r.value.store.users[id])
    ensures r.Success? ==> r.value.store.users[id].refreshToken == Some(r.value.tokens.refresh)
  {
    if id !in db.users || mint.None? then
      Failure(ApiError(500, MsgTokenGeneration))
    else
      var u := db.users[id].(refreshToken := Some(mint.value.refresh));
      Success(Issued(db.(users := db.users[id := u]), mint.value))
  }

  // ----- registerUser -----

  /** `req.files` as multer fills it: each upload field name with the staged paths of its files. */
  type Files = map<string, seq<string>>

  datatype RegisterRequest = RegisterRequest(
    fullName: Field, email: Field, username: Field, password: Field, files: Option<Files>)

  /** `[fullName, email, username, password].some((field) => field?.trim() === "")` */
  predicate AnyFieldBlank(req: RegisterRequest) {
    TrimsToEmpty(req.fullName) || TrimsToEmpty(req.email)
    || TrimsToEmpty(req.username) || TrimsToEmpty(req.password)
  }

  /** `req.files?.avatar[0]?.path`; indexing a missing `avatar` entry throws. */
  function AvatarLocalPath(files: Option<Files>): (r: Result<Field, Failure>)
    // indexing a missing `avatar` array is the only way the expression throws
    ensures r.Failure? <==> files.Some? && "avatar" !in files.value
    ensures r.Failure? ==> r.error == Uncaught(TypeError)
    // a path is found exactly when an avatar file was staged, and it is the first one
    ensures r.Success? && r.value.Some? <==> files.Some? && "avatar" in files.value && |files.value["avatar"]| > 0
    ensures r.Success? && r.value.Some? ==> r.value.value == files.value["avatar"][0]
  {
    match files
    case None => Success(None)
    case Some(m) =>
      if "avatar" !in m then Failure(Uncaught(TypeError))
      else if |m["avatar"]| == 0 then Success(None)
      else Success(Some(m["avatar"][0]))
  }

  /** The first staged cover image, when `req.files.coverImage` is a non-empty array. */
  function CoverImageLocalPath(files: Option<Files>): (r: Field)
    // a path is found exactly when a cover image was staged, and it is the first one
    ensures r.Some? <==> files.Some? && "coverImage" in files.value && |files.value["coverImage"]| > 0
    ensures r.Some? ==> r.value == files.value["coverImage"][0]
  {
    if files.Some? && "coverImage" in files.value && |files.value["coverImage"]| > 0
    then Some(files.value["coverImage"][0])
    else None
  }

  /** The urls the created record will point at. */
  datatype Assets = Assets(avatarUrl: string, coverUrl: string)

  /**
   * The two uploads of `registerUser`: the avatar, whose path must be truthy, then the
   * optional cover image; each failed upload throws a 400 through its callback.
   */
  function UploadAssets(avatarPath: Field, coverPath: Field, avatarSdk: SdkOutcome,
                        coverSdk: SdkOutcome): (r: Result<Assets, Failure>)
    requires Truthy(avatarPath)
    ensures r.Failure? ==> r.error.ApiError? && r.error.status == 400
    ensures r.Failure? ==> r.error.message == MsgAvatarRequired || r.error.message == MsgCoverImageRequired
    ensures r.Success? ==> avatarSdk == Stored(r.value.avatarUrl)
    ensures r.Success? && r.value.coverUrl != "" ==> coverSdk == Stored(r.value.coverUrl)
    ensures r.Success? && !Truthy(coverPath) ==> r.value.coverUrl == ""
    ensures r.Success? <==> avatarSdk.Stored? && (!Truthy(coverPath) || coverSdk.Stored?)
  {
    match UploadOnCloudinary(avatarPath, avatarSdk, ThrowOnError(ApiError(400, MsgAvatarRequired)))
    case Threw(e) => Failure(e)
    case Null => Failure(Uncaught(TypeError))
    case Response(avatarUrl) =>
      match UploadOnCloudinary(coverPath, coverSdk, ThrowOnError(ApiError(400, MsgCoverImageRequired)))
      case Threw(e) => Failure(e)
      // `coverImage?.url || ""`
      case Null => Success(Assets(avatarUrl, ""))
      case Response(coverUrl) => Success(Assets(avatarUrl, coverUrl))
  }

  /**
   * `User.create({...})` then the projected re-read. The record takes the next id and the
   * lower-cased username; an absent username throws before the insert, and an absent
   * required field is refused by the schema.
   */
  function CreateUser(db: Db, req: RegisterRequest, assets: Assets, hash: string -> PasswordHash): (r: Reply)
    ensures r.Failure? ==> r.error.Uncaught?
    ensures r.Success? <==>
      req.username.Some? && req.email.Some? && req.fullName.Some? && req.password.Some?
    ensures r.Success? ==> r.value.response.Registered?
    ensures Valid(db) && r.Success? ==>
      && r.value.response.user.id !in db.users
      && r.value.store.users.Keys == db.users.Keys + {r.value.response.user.id}
      && (forall k :: k in db.users ==> r.value.store.users[k] == db.users[k])
      && Valid(r.value.store)
    ensures r.Success? ==> r.value.response.user.id in r.value.store.users
    ensures r.Success? ==>
      var u := r.value.store.users[r.value.response.user.id];
      && u.username == ToLowerCase(req.username.value)
      && u.email == req.email.value
      && u.fullName == req.fullName.value
      && u.password == hash(req.password.value)
      && u.avatar == assets.avatarUrl
      && u.coverImage == assets.coverUrl
      && u.refreshToken.None?
    ensures r.Success? ==>
      r.value.response.user.password.Excluded? && r.value.response.user.refreshToken.Excluded?
  {
    if req.username.None? then
      // `username.toLowerCase()` on undefined
      Failure(Uncaught(TypeError))
    else if req.fullName.None? || req.email.None? || req.password.None? then
      Failure(Uncaught(SchemaValidation))
    else
      var id := db.nextId;
      var u := User(ToLowerCase(req.username.value), req.email.value, req.fullName.value,
                    hash(req.password.value), assets.avatarUrl, assets.coverUrl, None);
      Success(Outcome(Db(db.users[id := u], db.nextId + 1), Registered(Select(id, u, RegisterExclusions))))
  }

  function RegisterUser(db: Db, req: RegisterRequest, avatarSdk: SdkOutcome, coverSdk: SdkOutcome,
                        hash: string -> PasswordHash): (r: Reply)
    ensures r.Failure? && r.error.ApiError? ==> r.error.status == 400 || r.error.status == 409
    ensures r == Failure(ApiError(400, MsgAllFieldsRequired)) <==> AnyFieldBlank(req)
    ensures r.Success? ==> r.value.response.Registered? && HttpStatus(r.value.response) == 201
    ensures r.Success? ==> !AnyFieldBlank(req) && FindOne(db, Query(req.username, req.email)).None?
    ensures r.Success? ==> avatarSdk.Stored?
    ensures r.Success? ==>
      r.value.response.user.password.Excluded? && r.value.response.user.refreshToken.Excluded?
  {
    if AnyFieldBlank(req) then
      Failure(ApiError(400, MsgAllFieldsRequired))
    else
      RegisterCheckedFields(db, req, avatarSdk, coverSdk, hash)
  }

  /** `registerUser` past the field check: the duplicate check, the avatar path, the uploads and the insert. */
  function RegisterCheckedFields(db: Db, req: RegisterRequest, avatarSdk: SdkOutcome, coverSdk: SdkOutcome,
                                 hash: string -> PasswordHash): (r: Reply)
    ensures r.Failure? && r.error.ApiError? ==>
      || r.error == ApiError(409, MsgUserExists)
      || r.error == ApiError(400, MsgAvatarRequired)
      || r.error == ApiError(400, MsgCoverImageRequired)
    ensures r == Failure(ApiError(409, MsgUserExists)) <==> FindOne(db, Query(req.username, req.email)).Some?
    ensures r.Success? ==> FindOne(db, Query(req.username, req.email)).None? && avatarSdk.Stored?
    ensures r.Success? ==>
      && AvatarLocalPath(req.files).Success? && Truthy(AvatarLocalPath(req.files).value)
      && UploadAssets(AvatarLocalPath(req.files).value, CoverImageLocalPath(req.files), avatarSdk, coverSdk).Success?
      && r == CreateUser(db, req,
                         UploadAssets(AvatarLocalPath(req.files).value, CoverImageLocalPath(req.files),
                                      avatarSdk, coverSdk).value, hash)
  {
    if FindOne(db, Query(req.username, req.email)).Some? then
      Failure(ApiError(409, MsgUserExists))
    else match AvatarLocalPath(req.files)
      case Failure(e) => Failure(e)
      case Success(avatarPath) =>
        if !Truthy(avatarPath) then
          Failure(ApiError(400, MsgAvatarRequired))
        else match UploadAssets(avatarPath, CoverImageLocalPath(req.files), avatarSdk, coverSdk)
          case Failure(e) => Failure(e)
          case Success(assets) => CreateUser(db, req, assets, hash)
  }

  // ----- loginUser -----

  datatype LoginRequest = LoginRequest(username: Field, email: Field, password: Field)

  function LoginUser(db: Db, req: LoginRequest, passwordOk: (PasswordHash, Field) -> bool,
                     mint: Option<TokenPair>): (r: Reply)
    ensures r.Failure? ==> r.error.ApiError? && r.error.status in {400, 404, 401, 500}
    ensures r.Success? ==> r.value.response.LoggedIn? && r.value.response.user.id in db.users
    // the user found by username or email, whose password checked out, now holds exactly the
    // refresh token handed back, and nothing else in the store moves
    ensures r.Success? ==>
      var id := r.value.response.user.id;
      && Matches(db.users[id], Query(req.username, req.email))
      && passwordOk(db.users[id].password, req.password)
      && mint == Some(TokenPair(r.value.response.accessToken, r.value.response.refreshToken))
      && OthersUnchanged(db, r.value.store, id)
      && SameProfile(db.users[id], r.value.store.users[id])
      && r.value.store.users[id].refreshToken == Some(r.value.response.refreshToken)
    ensures Valid(db) && r.Success? ==> Valid(r.value.store)
    // the projection misses the password, so the digest goes out with the response
    ensures r.Success? ==>
      r.value.response.user.password == Included(db.users[r.value.response.user.id].password)
      && r.value.response.user.refreshToken.Excluded?
  {
    if !Truthy(req.username) && !Truthy(req.email) then
      Failure(ApiError(400, MsgIdentifierRequired))
    else match FindOne(db, Query(req.username, req.email))
      case None => Failure(ApiError(404, MsgUserNotFound))
      case Some(id) =>
        if !passwordOk(db.users[id].password, req.password) then
          Failure(ApiError(401, MsgPasswordIncorrect))
        else match GenerateAccessAndRefreshTokens(db, id, mint)
          case Failure(e) => Failure(e)
          case Success(issued) =>
            var loggedIn := Select(id, issued.store.users[id], LoginExclusions);
            Success(Outcome(issued.store,
                            LoggedIn(loggedIn, issued.tokens.access, issued.tokens.refresh)))
  }

  // ----- logoutUser -----

  /** `$set: { refreshToken: undefined }` on the caller's record; an unknown id updates nothing. */
  function LogoutUser(db: Db, caller: UserId): (r: Reply)
    ensures r.Success? && r.value.response == LoggedOut
    ensures caller in db.users ==>
      && OthersUnchanged(db, r.value.store, caller)
      && SameProfile(db.users[caller], r.value.store.users[caller])
      && r.value.store.users[caller].refreshToken.None?
    ensures caller !in db.users ==> r.value.store == db
    ensures Valid(db) ==> Valid(r.value.store)
  {
    if caller in db.users then
      var u := db.users[caller].(refreshToken := None);
      Success(Outcome(db.(users := db.users[caller := u]), LoggedOut))
    else
      Success(Outcome(db, LoggedOut))
  }

  // ----- refreshAccessToken -----

  /** `jwt.verify(token, REFRESH_TOKEN_SECRET)`: it throws with a message, or decodes a payload whose `_id` may be missing. */
  datatype Verification = Rejected(message: string) | Decoded(subject: Option<UserId>)

  /** `req.cookies.refreshToken || req.body.refreshToken` */
  function IncomingRefreshToken(cookie: Field, body: Field): (r: Field)
    ensures r == cookie || r == body
    // some token is presented exactly when the cookie or the body carries one, the cookie winning
    ensures Truthy(r) <==> Truthy(cookie) || Truthy(body)
    ensures Truthy(cookie) ==> r == cookie
  {
    if Truthy(cookie) then cookie else body
  }

  /** The user a token names once it verifies, if any. */
  function Subject(verify: Token -> Verification, t: Token): Option<UserId> {
    if verify(t).Decoded? then verify(t).subject else None
  }

  /** `t` is the refresh token user `id` holds right now, and it verifies as naming `id`. */
  predicate IsLive(db: Db, verify: Token -> Verification, t: Token, id: UserId) {
    Subject(verify, t) == Some(id) && id in db.users && db.users[id].refreshToken == Some(t)
  }

  /**
   * The body of the `try`: the catch keeps only the message of what it throws. The response
   * destructures `newRefreshToken`, a name the token generator does not return, so the
   * refresh token in the body is undefined.
   */
  function RefreshTryBlock(db: Db, t: Token, verify: Token -> Verification,
                           mint: Option<TokenPair>): (r: Result<Outcome, string>)
    // the verifier's rejection message is what the catch sees
    ensures verify(t).Rejected? ==> r == Failure(verify(t).message)
    // success exactly when the token is the live one of the user it names and minting works
    ensures r.Success? <==> Subject(verify, t).Some? && IsLive(db, verify, t, Subject(verify, t).value) && mint.Some?
    ensures verify(t).Decoded? && r.Failure? ==>
      r.error in {MsgInvalidRefreshToken, MsgTokenExpiredOrUsed, MsgTokenGeneration}
    ensures r.Success? ==>
      var id := Subject(verify, t).value;
      && OthersUnchanged(db, r.value.store, id)
      && SameProfile(db.users[id], r.value.store.users[id])
      && r.value.store.users[id].refreshToken == Some(mint.value.refresh)
      && r.value.response == Refreshed(mint.value.access, None)
  {
    match verify(t)
    case Rejected(message) => Failure(message)
    case Decoded(subject) =>
      if subject.None? || subject.value !in db.users then
        Failure(MsgInvalidRefreshToken)
      else if db.users[subject.value].refreshToken != Some(t) then
        Failure(MsgTokenExpiredOrUsed)
      else match GenerateAccessAndRefreshTokens(db, subject.value, mint)
        case Failure(e) => Failure(e.message)
        case Success(issued) => Success(Outcome(issued.store, Refreshed(issued.tokens.access, None)))
  }

  function RefreshAccessToken(db: Db, cookie: Field, body: Field, verify: Token -> Verification,
                              mint: Option<TokenPair>): (r: Reply)
    ensures r.Failure? ==> r.error.ApiError? && r.error.status == 401
    // success needs a token that is live for the user it names, and rotates it
    ensures r.Success? ==>
      && Truthy(IncomingRefreshToken(cookie, body))
      && Subject(verify, IncomingRefreshToken(cookie, body).value).Some?
      && mint.Some?
    ensures r.Success? ==>
      var t := IncomingRefreshToken(cookie, body).value;
      var id := Subject(verify, t).value;
      && IsLive(db, verify, t, id)
      && OthersUnchanged(db, r.value.store, id)
      && SameProfile(db.users[id], r.value.store.users[id])
      && r.value.store.users[id].refreshToken == Some(mint.value.refresh)
      && r.value.response == Refreshed(mint.value.access, None)
    ensures Valid(db) && r.Success? ==> Valid(r.value.store)
  {
    var incoming := IncomingRefreshToken(cookie, body);
    if !Truthy(incoming) then
      Failure(ApiError(401, MsgUnauthorizedRequest))
    else match RefreshTryBlock(db, incoming.value, verify, mint)
      case Success(o) => Success(o)
      // `error?.message || "invalid refreshToken"`
      case Failure(message) =>
        Failure(ApiError(401, if message != "" then message else MsgInvalidRefreshToken))
  }

  // ----- changeCurrentPassword -----

  /**
   * The guard of `changeCurrentPassword`. On success it assigns the new password to
   * `user.passowrd`, a field the schema does not have, so the save leaves the record as it was.
   */
  function ChangeCurrentPassword(db: Db, caller: Option<UserId>, oldPassword: Field, newPassword: Field,
                                 passwordOk: (PasswordHash, Field) -> bool): (r: Reply)
    ensures r.Success? <==>
      caller.Some? && caller.value in db.users && passwordOk(db.users[caller.value].password, oldPassword)
    ensures r.Success? ==> r.value.store == db && r.value.response == PasswordChanged
    ensures r.Failure? && r.error.ApiError? ==> r.error == ApiError(400, MsgOldPasswordIncorrect)
  {
    if caller.None? || caller.value !in db.users then
      // `user.isPasswordCorrect` on a null user
      Failure(Uncaught(TypeError))
    else if !passwordOk(db.users[caller.value].password, oldPassword) then
      Failure(ApiError(400, MsgOldPasswordIncorrect))
    else
      Success(Outcome(db, PasswordChanged))
  }

  // ----- updateAccountDetails -----

  /** `u` and `v` agree on every field except `fullName` and `email`. */
  predicate SameExceptNameAndEmail(u: User, v: User) {
    && u.username == v.username
    && u.password == v.password
    && u.avatar == v.avatar
    && u.coverImage == v.coverImage
    && u.refreshToken == v.refreshToken
  }

  function UpdateAccountDetails(db: Db, caller: Option<UserId>, fullName: Field, email: Field): (r: Reply)
    ensures r.Failure? <==> !Truthy(fullName) || !Truthy(email)
    ensures r.Failure? ==> r.error == ApiError(400, MsgAccountFieldsRequired)
    ensures r.Success? && caller.Some? && caller.value in db.users ==>
      var id := caller.value;
      && OthersUnchanged(db, r.value.store, id)
      && SameExceptNameAndEmail(db.users[id], r.value.store.users[id])
      && r.value.store.users[id].fullName == fullName.value
      && r.value.store.users[id].email == email.value
      && r.value.response.AccountUpdated? && r.value.response.updated.Some?
      && r.value.response.updated.value.password.Excluded?
      && r.value.response.updated.value.refreshToken == Included(r.value.store.users[id].refreshToken)
    ensures r.Success? && !(caller.Some? && caller.value in db.users) ==>
      r.value == Outcome(db, AccountUpdated(None))
    ensures Valid(db) && r.Success? ==> Valid(r.value.store)
  {
    if !Truthy(fullName) || !Truthy(email) then
      Failure(ApiError(400, MsgAccountFieldsRequired))
    else if caller.Some? && caller.value in db.users then
      var id := caller.value;
      var u := db.users[id].(fullName := fullName.value, email := email.value);
      Success(Outcome(db.(users := db.users[id := u]), AccountUpdated(Some(Select(id, u, UpdateExclusions)))))
    else
      Success(Outcome(db, AccountUpdated(None)))
  }

  // ----- updateUserCoverImage -----

  /** `u` and `v` agree on every field except `coverImage`. */
  predicate SameExceptCoverImage(u: User, v: User) {
    && u.username == v.username
    && u.email == v.email
    && u.fullName == v.fullName
    && u.password == v.password
    && u.avatar == v.avatar
    && u.refreshToken == v.refreshToken
  }

  /** `findByIdAndUpdate(req.user?._id, { $set: { coverImage: url } }).select("-password")` */
  function SetCoverImage(db: Db, caller: Option<UserId>, url: string): (r: Reply)
    ensures r.Success?
    ensures caller.Some? && caller.value in db.users ==>
      var id := caller.value;
      && OthersUnchanged(db, r.value.store, id)
      && SameExceptCoverImage(db.users[id], r.value.store.users[id])
      && r.value.store.users[id].coverImage == url
      && r.value.response == CoverImageUpdated(Some(Select(id, r.value.store.users[id], UpdateExclusions)))
    ensures !(caller.Some? && caller.value in db.users) ==> r.value == Outcome(db, CoverImageUpdated(None))
    ensures Valid(db) ==> Valid(r.value.store)
  {
    if caller.Some? && caller.value in db.users then
      var id := caller.value;
      var u := db.users[id].(coverImage := url);
      Success(Outcome(db.(users := db.users[id := u]), CoverImageUpdated(Some(Select(id, u, UpdateExclusions)))))
    else
      Success(Outcome(db, CoverImageUpdated(None)))
  }

  /**
   * The handler as written: it calls `uploadOnCloudinary` without a callback, so the upload
   * wrapper rejects for every staged file and the handler never reaches the update.
   */
  function UpdateUserCoverImageAsWritten(db: Db, caller: Option<UserId>, file: Field, sdk: SdkOutcome): (r: Reply)
    ensures !Truthy(file) ==> r == Failure(ApiError(400, MsgCoverImageMissing))
    ensures Truthy(file) ==> r.Failure? && r.error.Uncaught?
  {
    if !Truthy(file) then
      Failure(ApiError(400, MsgCoverImageMissing))
    else match UploadOnCloudinary(file, sdk, NoCallback)
      case Threw(e) => Failure(e)
      case Null => Failure(Uncaught(TypeError))
      case Response(url) =>
        if url == "" then Failure(ApiError(400, MsgCoverImageUploadError)) else SetCoverImage(db, caller, url)
  }

  /**
   * The handler as evidently intended: the upload is given a callback that does not throw and
   * the url is read with `coverImage?.url`, so a failed upload reaches the 400 check.
   */
  function UpdateUserCoverImage(db: Db, caller: Option<UserId>, file: Field, sdk: SdkOutcome): (r: Reply)
    ensures r.Failure? <==> !Truthy(file) || !(sdk.Stored? && sdk.url != "")
    ensures !Truthy(file) ==> r == Failure(ApiError(400, MsgCoverImageMissing))
    ensures Truthy(file) && r.Failure? ==> r == Failure(ApiError(400, MsgCoverImageUploadError))
    ensures r.Success? && caller.Some? && caller.value in db.users ==>
      var id := caller.value;
      && OthersUnchanged(db, r.value.store, id)
      && SameExceptCoverImage(db.users[id], r.value.store.users[id])
      && r.value.store.users[id].coverImage == sdk.url
      && r.value.response == CoverImageUpdated(Some(Select(id, r.value.store.users[id], UpdateExclusions)))
    ensures r.Success? && !(caller.Some? && caller.value in db.users) ==>
      r.value == Outcome(db, CoverImageUpdated(None))
    ensures Valid(db) && r.Success? ==> Valid(r.value.store)
  {
    if !Truthy(file) then
      Failure(ApiError(400, MsgCoverImageMissing))
    else
      var uploaded := UploadOnCloudinary(file, sdk, IgnoreErrors);
      var url := if uploaded.Response? then uploaded.url else "";
      if url == "" then Failure(ApiError(400, MsgCoverImageUploadError)) else SetCoverImage(db, caller, url)
  }
}

=== FILE: wrappers.dfy ===
/** Option and Result, shared by the whole model. */
module Wrappers {

  /** A value that may be missing: JavaScript's `undefined`/`null` next to a real value. */
  datatype Option<+T> = None | Some(value: T)

  /** The outcome of a handler: a success value or the error it threw. */
  datatype Result<+R, +E> = Success(value: R) | Failure(error: E)
}
